=== FILE: README.md ===
# img-resizer-cli, modelled in Dafny

`img-resizer-cli` is a small command-line tool. It is invoked as
`img-resize <folder> [max width] [max height] [speed]`. It resizes every
image file directly inside `<folder>` and writes the results, under the same
file names, into `<folder>/resized-images`. It creates that directory when it
is missing. This project models the tool's decision logic and proves
properties of it:

- how the four positional arguments become a configuration (`Args`): the
  source folder, two `u32` maxima, and one of five resampling filters;
- how an entry's file name yields its extension, following the rules of
  Rust's `Path::extension`, and which extensions count as images
  (`Paths`, `Classify`);
- the box handed to the image library's `resize` (`Resize`);
- preparing `resized-images` on a filesystem (`Disks`);
- the run itself (`Driver`). It goes through the directory listing, skips
  directories and non-images, and resizes and saves each image. It returns
  at the first failure of any kind.

The image library, the OS display query and the operating system appear only
as inputs:
- each entry carries what opening/decoding its file would give and whether
  the encoder accepts it;
- the displays are a sequence, ordered as `DisplayInfo::all()` returns them;
- the filesystem is a set of directories and files, plus the paths where the
  OS reports I/O errors;
- the directory listing is a given sequence, or `None` when the folder cannot
  be listed.

The run is a method, `Driver.Run`. It changes a `FileSystem` object and is
proved equal to a pure specification, `Driver.RunSpec`. The lemmas are stated
about that specification and about the pure functions beneath it.

Behaviours of the code worth knowing, all modelled as written:
- The usage text (src/main.rs:10, 139) says `0` stands for the screen size.
  In the code, an explicit `0` stays `0`, and at resize time it means "the
  image's width", for the height too (src/main.rs:100-101). Only a
  *missing* token falls back to the display (src/main.rs:144-148).
- If no display can be queried, the program panics (`unwrap`/`[0]`,
  src/main.rs:145); the model reports this as `NoDisplay`. The other
  failures return from `main` normally; the model reports each one as a
  distinct `Fault`.
- A save that fails after `DynamicImage::save` has created its target (the encoder refuses the image, as the ICO encoder does past 256 pixels) leaves an empty or partly written file in `resized-images`, truncating any earlier output of that name; the run still aborts (src/main.rs:119-124).
- If the source folder is reported as absent after it was listed, the run
  goes on without creating `resized-images` (src/main.rs:45).
- Dimension tokens are parsed by Rust's `u32` parser (src/main.rs:137). It
  accepts one leading `+` and leading zeros, and rejects a lone `+`, any
  `-`, and values above 4294967295.

## Model

| member | source | states |
|---|---|---|
| `Paths.ToStr` | src/main.rs:105-112 | a file name converts to a string exactly when every unit of it is text, and the string has the same characters |
| `Paths.ToStrOfFromStr` | src/main.rs:106-107 | a name made of text converts back to that text |
| `Paths.Extension` | src/main.rs:78-81 | there is no extension exactly when no dot follows the first unit; otherwise the extension is the dot-free text after a dot at position > 0 (the last dot) |
| `Paths.ExtensionOfJoinedName` | src/main.rs:78-81 | `stem.ext` with a non-empty stem and a dot-free `ext` has extension `ext` |
| `Paths.Separator` | src/main.rs:42 | on Unix, `Path::join` inserts no separator after an empty base or one ending in `/`, and a single `/` otherwise |
| `Paths.Join` | src/main.rs:42 | on Unix, the joined path is the base, then exactly that separator, then the added component |
| `Classify.IsImage` | src/main.rs:152-155 | every accepted extension is 3-4 lower-case ASCII letters, so anything with an upper-case letter is refused |
| `Classify.ClassificationIsCaseSensitive` | src/main.rs:152-155 | "jpg" and "png" are images; "JPG", "Png", "TIFF" and "Jpeg" are not |
| `Classify.ExtensionText` | src/main.rs:78-81 | a name without an extension gives "none"; an extension that converts to a string gives that string, and any result other than "none" is such a string; an extension that does not convert gives "none"; the result never holds a dot |
| `Classify.UnreadableExtensionIsNotImage` | src/main.rs:78-82 | a name without an extension, or whose extension is not UTF-8, gets the extension "none" and is not an image |
| `Classify.ExtensionTextOfJoinedName` | src/main.rs:78-82 | for `stem.ext`, the extension text is `ext`, and the entry is an image exactly when `ext` is in the list |
| `Args.ParseU32` | src/main.rs:137 | the empty string and a lone `+` are rejected; whatever is accepted is digits with at most a leading `+` |
| `Args.ParseDecimal` | src/main.rs:137-142 | the decimal rendering of n parses back to n exactly when n fits in 32 bits, and is rejected otherwise |
| `Args.ParseIgnoresLeadingZero` | src/main.rs:137 | a leading zero does not change what a digit string parses to |
| `Args.ParseSigns` | src/main.rs:137 | one leading `+` is ignored; a leading `-` is always rejected |
| `Args.Arg` | src/main.rs:7 | the n-th argument exists exactly when n is below the argument count, and is that argument |
| `Args.GetDimension` | src/main.rs:135-150 | a token that parses gives its value (0 included); any other token gives 0; with no token the height of the first display `DisplayInfo::all()` returns is used when `prop` is "height", its width otherwise, and no display means a panic |
| `Args.DimensionFromToken` | src/main.rs:135-143 | a token that renders a 32-bit number gives that number, whatever the axis or displays |
| `Args.TokenFor` | src/main.rs:18-31 | each filter except Lanczos3 has a selecting token, one of the four names |
| `Args.SelectFilter` | src/main.rs:18-31 | the result is Lanczos3 exactly when the token is missing or not one of "fastest", "fast", "medium", "slow" |
| `Args.SelectFilterInvertsTokenFor` | src/main.rs:18-31 | each filter's token selects that filter |
| `Args.Configure` | src/main.rs:7-31 | the run stops with MissingPath exactly when no path is given, and with NoDisplay exactly when a path is given, a dimension is missing and there is no display; otherwise the source is argument 1, the maxima are `get_dimension` of arguments 2 ("width") and 3 ("height"), and the filter is selected by argument 4 |
| `Args.ConfigureWithPathOnly` | src/main.rs:7-31 | given only a path, the maxima are the width and height of the first display `DisplayInfo::all()` returns and the filter is Lanczos3 |
| `Resize.ResizeBounds` | src/main.rs:99-102 | a non-zero maximum is kept; a zero maximum becomes the image's width, for the height too; an image of non-zero width never gets an empty box |
| `Resize.BoundsIgnoreImageHeight` | src/main.rs:99-102 | the image's height never affects the bounds |
| `Resize.ZeroMaximaGiveSquareOfWidth` | src/main.rs:99-102 | with both maxima 0, a 100x50 image is asked to fit 100x100, not its own 100x50 |
| `Disks.Disk.Probe` | src/main.rs:44-47 | the check fails exactly on the paths where the OS reports an error; otherwise a path is present exactly when it is a directory or a file |
| `Disks.DestDir` | src/main.rs:42 | the output directory is the source path, the Unix `Path::join` separator, then `resized-images` |
| `Disks.Prepare` | src/main.rs:42-66 | SourceCheckFailed exactly when the source check fails; DestCheckFailed exactly when the source exists and the check of `resized-images` fails; DestCreateFailed exactly when the source exists, `resized-images` does not and cannot be created; an absent source changes nothing; files are never touched; `resized-images` is the only directory added, and afterwards it exists if the source does |
| `Disks.PrepareIsIdempotent` | src/main.rs:42-66 | preparing again after a successful preparation, even with files added, succeeds and changes nothing |
| `Disks.FileSystem.Exists` | src/main.rs:44-47 | reports the probe result of the current filesystem state |
| `Disks.FileSystem.CreateDir` | src/main.rs:48-54 | succeeds exactly when the path does not exist and creation is not refused, and then adds the directory and changes nothing else |
| `Disks.FileSystem.Save` | src/main.rs:105-125 | creates (or truncates) `dir/name` exactly when `dir` exists and the target is not a directory, whatever the encoder decides, and changes nothing else; it reports success exactly when, in addition, the encoder accepts the image |
| `Driver.EntryAction` | src/main.rs:76-130 | an entry is skipped exactly when it is a directory or not an image; otherwise an open failure gives OpenFailed, a decode failure DecodeFailed, a non-UTF-8 name NameNotText; a decoded image with a text name is written exactly when it encodes, `resized-images` exists and the target is not a directory, and is then written to `resized-images/<its name>` with `ResizeBounds` and the chosen filter; otherwise the save fails at that target |
| `Driver.HealthyImageIsWritten` | src/main.rs:82-125 | an image `stem.ext` that decodes, has a text name and encodes is written into `resized-images` under its own name, in `ResizeBounds` with the chosen filter |
| `Driver.Leftover` | src/main.rs:119-124 | no failure leaves a file except a failed save, which leaves only its own target, and does so whenever `resized-images` exists and the target is not a directory |
| `Driver.EntryLeftover` | src/main.rs:82-125 | a failing entry leaves a file exactly when it is a decoded image with a text name whose encoding was refused while the target could be created, and the file is then that target |
| `Driver.ItemAction` | src/main.rs:69-75 | an unreadable listing item, and nothing else, fails with EntryReadFailed |
| `Driver.RefusedImageLeavesTarget` | src/main.rs:82-125 | an image `stem.ext` that decodes and has a text name but is refused by the encoder fails with SaveFailed on `resized-images/<its name>` and leaves that target whenever it could be created |
| `Driver.Step` | src/main.rs:68-131 | after a failure nothing changes; otherwise a write appends its output and every other action leaves the outputs as they were; the walk stays unfailed exactly when it was unfailed and the action does not fail, and the first failing action's fault is the one recorded |
| `Driver.Fold` | src/main.rs:68-131 | at most one output per action, and a failure is always that of one of the actions |
| `Driver.Walk` | src/main.rs:68-131 | at most one output per listing item, and a failure is always that of one of the items |
| `Driver.FoldStopsAtFault` | src/main.rs:68-131 | once an action has failed, the actions after it change nothing |
| `Driver.FoldWithoutFailure` | src/main.rs:68-131 | without a failing action, the fold writes exactly the writes, in order |
| `Driver.WalkStopsAtFault` | src/main.rs:68-131 | after the first failure no later entry is processed: appending any items leaves the walk's result unchanged |
| `Driver.WalkSkipsDirectories` | src/main.rs:77 | a directory entry, `resized-images` included, is never opened and leaves the walk unchanged |
| `Driver.WalkSkipsNonImages` | src/main.rs:82 | a file that is not an image (no extension, non-UTF-8 extension, or not in the list) leaves the walk unchanged and is not an error |
| `Driver.WalkSucceedsIffNoItemFails` | src/main.rs:68-131 | the walk finishes without failure exactly when no item's action fails |
| `Driver.WalkWithoutFailure` | src/main.rs:68-131 | when no item fails, the walk ends without failure and its outputs are one per written item, in the order of the listing |
| `Driver.WalkFailsAtFirstFailingItem` | src/main.rs:68-131 | a failed walk stopped at an item whose predecessors all went through; its outputs are exactly those of those predecessors |
| `Driver.WalkOutputsComeFromImages` | src/main.rs:82-125 | every output is the write of some listed entry |
| `Driver.WalkWritesEveryImage` | src/main.rs:68-131 | in a walk without failure every image file of the listing is written and its output kept, as is the output of every write |
| `Driver.RunSpec` | src/main.rs:5-133 | a run that completes or writes anything had a successful configuration, a path, a listing and a successful preparation; a configuration failure aborts with that fault, and after a successful one an unreadable listing aborts with ReadDirFailed and a failed preparation with its fault, each of these changing nothing and writing nothing |
| `Driver.MissingPathTouchesNothing` | src/main.rs:7-13 | without a path argument the run stops with MissingPath; it writes nothing and leaves the filesystem unchanged |
| `Driver.RunOnlyAdds` | src/main.rs:42-131 | a run adds exactly the files it reports plus, when it aborted at a save whose target could be created, that one target; it adds at most the directory `resized-images` and removes nothing |
| `Driver.RunWritesIntoDest` | src/main.rs:105-125 | every output path is `<source>/resized-images/<name>` for the UTF-8 name of a listed entry |
| `Driver.RerunPreparesNothing` | src/main.rs:42-66 | after a completed run, preparing the same source again succeeds and changes nothing |
| `Driver.PhotoAndNoteFolder` | src/main.rs:5-133 | a folder holding `a.jpg` and `notes.md`, run with only the path on a 1920x1080 display, completes, creates `resized-images`, and writes exactly one image, `resized-images/a.jpg`, into 1920x1080 with Lanczos3 |
| `Driver.RefusedIconLeavesFile` | src/main.rs:5-133 | a folder holding a `favicon.ico` the encoder refuses, run with only the path on a 1920x1080 display, aborts with SaveFailed on `resized-images/favicon.ico`, writes no output, and still leaves that file beside the created `resized-images` |
| `Driver.PrepareDest` | src/main.rs:42-66 | the imperative destination step fails, or leaves the filesystem, exactly as `Prepare` says |
| `Driver.ProcessEntry` | src/main.rs:76-130 | the loop body returns the action `EntryAction` specifies; a skip leaves the filesystem as it was, a write adds its target, and a failure adds exactly what `Leftover` says it leaves |
| `Driver.ProcessItem` | src/main.rs:69-130 | one loop iteration returns the action `ItemAction` specifies; a skip leaves the filesystem as it was, a write adds its target, and a failure adds exactly what `Leftover` says it leaves |
| `Driver.VisitItem` | src/main.rs:69-130 | one turn of the loop advances `Walk` by the next item, ends the walk at a failing item with that item's fault, and leaves the filesystem with the files written so far plus, after a failure, what `Leftover` says the failure leaves |
| `Driver.WalkEntries` | src/main.rs:68-131 | the loop's outputs and failure are those of `Walk`, and the filesystem gains exactly the written files plus, when the loop stopped at a failed save, the target that save left behind |
| `Driver.Run` | src/main.rs:5-133 | the status, the outputs and the final filesystem are those of `RunSpec` |

## Left out

- Image decoding, encoding and resampling (src/main.rs:85-102, 119) belong to the `image` crate. Its source is not part of this model. Each entry carries what opening and decoding it gives (`Decoding`, with the image's size) and whether encoding succeeds (`encodes`). The aspect-ratio fit inside `resize` is not modelled, so an `Output` records the requested box and filter, not the final pixel size.
- `DisplayInfo::all()` is a foreign OS query. The displays are an input sequence. A failed query and an empty result are both shown as an empty sequence, and both end in the `NoDisplay` panic.
- Messages printed with `println!`/`eprintln!` are not modelled. This includes the parse warning, which says "max height" even for the width. The `Status` value takes the place of the error messages.
- The order of `read_dir` is decided by the OS. The listing is an input sequence, and it is not tied to the filesystem snapshot, because the OS gives no such guarantee while the run is going on.
- `std::env::args` panics on arguments that are not valid Unicode. Arguments are modelled as strings, so that panic is not modelled.
- `Paths.Separator`, `Paths.Join`, `Disks.DestDir`: paths are joined by the Unix rule only. On Windows `PathBuf::push` inserts `\`, treats a trailing `\` as well as `/` as a separator, and inserts nothing after a bare drive prefix such as `C:`; the model does not capture those cases.
- `read_dir` never yields the names `.` and `..`, an empty name, or a name that contains `/`. The model does not exclude such names, and for them it differs from Rust: Rust gives `..` no extension, where `Paths.Extension` gives it an empty one, and `Path::join` with a component that starts with `/` replaces the base, which `Paths.Join` does not model. The `None` branch of `file_name` (src/main.rs:113-116) is left out because it cannot arise for a `read_dir` entry. Every lemma holds for all names, and so covers the names `read_dir` does yield.
- `Path::is_dir` follows symbolic links and reports `false` when it cannot tell. The model takes the answer as the entry's `isDir` flag.
- `OsStr`-to-UTF-8 conversion is reduced to units that are either text or a byte that belongs to no valid sequence (always 0x80 or above, so never a dot). Byte-level UTF-8 decoding is not modelled.
- `Disks.FileSystem.Save`: creating the target is modelled as failing only when the directory is missing or the target is a directory. Other OS failures (permissions, a full disk) are not modelled; a failure while writing after the target was created is folded into the entry's `encodes` flag and, like a refused encoding, leaves the target behind. The model records only whether a path exists, not that the file left behind is empty or partial.

=== FILE: args.dfy ===
/**
 * From command-line tokens to the run's configuration: the source
 * directory, the two maximum dimensions and the resampling filter.
 */
module Args {
  import opened Wrappers
  import opened Faults

  const U32_MAX: int := 0xFFFF_FFFF

  /** Rust's `u32`. */
  type U32 = n: int | 0 <= n <= U32_MAX

  /** A display as `DisplayInfo::all()` reports it, in the order listed. */
  datatype Display = Display(width: U32, height: U32)

  // ---------------------------------------------------------------------
  // Decimal parsing (`str::parse::<u32>`)
  // ---------------------------------------------------------------------

  predicate IsDigit(c: char) { '0' <= c <= '9' }

  predicate AllDigits(s: string) { forall i :: 0 <= i < |s| ==> IsDigit(s[i]) }

  /** The number a string of decimal digits denotes, most significant first. */
  function DigitsValue(s: string): nat
    requires AllDigits(s)
  {
    if s == [] then 0
    else DigitsValue(s[..|s| - 1]) * 10 + (s[|s| - 1] as int - '0' as int)
  }

  /**
   * Parsing a `u32` the way Rust's standard library does: at most one
   * leading `+`, then one or more ASCII digits (leading zeros allowed) whose
   * value fits in 32 bits. The empty string, a lone `+`, a `-` sign, any
   * other character and any value above 4294967295 are rejected.
   */
  function ParseU32(s: string): (r: Option<U32>)
    ensures s == [] || s == "+" ==> r.None?
    ensures r.Some? ==> forall i :: 0 <= i < |s| ==> IsDigit(s[i]) || (i == 0 && s[i] == '+')
  {
    var digits := if |s| > 1 && s[0] == '+' then s[1..] else s;
    if digits == [] || !AllDigits(digits) then None
    else
      var v := DigitsValue(digits);
      if v <= U32_MAX then Some(v) else None
  }

  /** The canonical decimal rendering of a number (no sign, no leading zero). */
  function Decimal(n: nat): (s: string)
    ensures s != [] && AllDigits(s)
  {
    if n < 10 then [('0' as int + n) as char]
    else Decimal(n / 10) + [('0' as int + n % 10) as char]
  }

  lemma {:induction false} DecimalValue(n: nat)
    ensures DigitsValue(Decimal(n)) == n
  {
    if n >= 10 {
      var s := Decimal(n);
      assert s[..|s| - 1] == Decimal(n / 10);
      DecimalValue(n / 10);
    }
  }

  /** Every number's decimal rendering parses back to it exactly when it
      fits in 32 bits; larger numbers overflow and are rejected. */
  lemma ParseDecimal(n: nat)
    ensures ParseU32(Decimal(n)) == if n <= U32_MAX then Some(n) else None
  {
    DecimalValue(n);
  }

  lemma {:induction false} LeadingZeroValue(s: string)
    requires AllDigits(s)
    ensures DigitsValue("0" + s) == DigitsValue(s)
  {
    if s != [] {
      var t := "0" + s;
      assert t[..|t| - 1] == "0" + s[..|s| - 1];
      LeadingZeroValue(s[..|s| - 1]);
    }
  }

  /** Leading zeros do not change what a digit string parses to. */
  lemma ParseIgnoresLeadingZero(s: string)
    requires s != [] && AllDigits(s)
    ensures ParseU32("0" + s) == ParseU32(s)
  {
    LeadingZeroValue(s);
  }

  /** One leading `+` is accepted and ignored; a `-` is always rejected. */
  lemma ParseSigns(s: string)
    requires s != [] && s[0] != '+'
    ensures ParseU32("+" + s) == ParseU32(s)
    ensures ParseU32("-" + s).None?
  {
    assert ("+" + s)[1..] == s;
    assert !IsDigit(("-" + s)[0]);
  }

  // ---------------------------------------------------------------------
  // Positional arguments
  // ---------------------------------------------------------------------

  /** `std::env::args().nth(n)`: position 0 holds the program's own name. */
  function Arg(args: seq<string>, n: nat): (r: Option<string>)
    ensures r.Some? <==> n < |args|
    ensures r.Some? ==> r.value == args[n]
  {
    if n < |args| then Some(args[n]) else None
  }

  /**
   * `get_dimension`: a token that parses is used as it is (0 included), a
   * token that does not parse gives 0, and a missing token falls back to the
   * first listed display's height when `prop` is "height" and to its width for
   * any other `prop`. With no display to query the program panics: `None`.
   */
  function GetDimension(token: Option<string>, prop: string, displays: seq<Display>): (r: Option<U32>)
    ensures token.Some? ==> r.Some?
    ensures token.Some? && ParseU32(token.value).Some? ==> r == ParseU32(token.value)
    ensures token.Some? && ParseU32(token.value).None? ==> r == Some(0)
    ensures token.None? ==> (r.None? <==> displays == [])
    ensures token.None? && displays != [] ==>
      r.value == if prop == "height" then displays[0].height else displays[0].width
  {
    match token
    case Some(v) =>
      (match ParseU32(v)
       case None => Some(0)
       case Some(u) => Some(u))
    case None =>
      if displays == [] then None
      else if prop == "height" then Some(displays[0].height)
      else Some(displays[0].width)
  }

  /** A token written as the decimal of a 32-bit number gives that number,
      whatever the axis and whatever displays are attached. */
  lemma DimensionFromToken(n: U32, prop: string, displays: seq<Display>)
    ensures GetDimension(Some(Decimal(n)), prop, displays) == Some(n)
  {
    ParseDecimal(n);
  }

  // ---------------------------------------------------------------------
  // Resampling filter
  // ---------------------------------------------------------------------

  /** The resampling filters of the image library, fastest first. */
  datatype FilterType = Nearest | Triangle | CatmullRom | Gaussian | Lanczos3

  const FilterTokens: set<string> := {"fastest", "fast", "medium", "slow"}

  /** The token that selects a filter; the default filter has none. */
  function TokenFor(f: FilterType): (t: Option<string>)
    ensures t.Some? <==> f != Lanczos3
    ensures t.Some? ==> t.value in FilterTokens
  {
    match f
    case Nearest => Some("fastest")
    case Triangle => Some("fast")
    case CatmullRom => Some("medium")
    case Gaussian => Some("slow")
    case Lanczos3 => None
  }

  /** The filter chosen by the fourth argument. Every token, and no token,
      selects a filter; anything other than the four names gives Lanczos3. */
  function SelectFilter(token: Option<string>): (f: FilterType)
    ensures f == Lanczos3 <==> token.None? || token.value !in FilterTokens
  {
    match token
    case None => Lanczos3
    case Some(v) =>
      if v == "fastest" then Nearest
      else if v == "fast" then Triangle
      else if v == "medium" then CatmullRom
      else if v == "slow" then Gaussian
      else Lanczos3
  }

  /** Each filter's token selects that filter, and distinct filters have
      distinct tokens. */
  lemma SelectFilterInvertsTokenFor(f: FilterType)
    ensures SelectFilter(TokenFor(f)) == f
  {
  }

  // ---------------------------------------------------------------------
  // The run's configuration
  // ---------------------------------------------------------------------

  /** Settings fixed once at start-up; 0 for a dimension means "the
      image's own width". */
  datatype Config = Config(source: string, maxWidth: U32, maxHeight: U32, filter: FilterType)

  /**
   * The start of `main`: the source directory (argument 1) must be given;
   * the width (argument 2) is resolved before the height (argument 3), each
   * possibly from the first listed display; argument 4 names the filter.
   */
  function Configure(args: seq<string>, displays: seq<Display>): (r: Result<Config, Fault>)
    ensures r == Failure(MissingPath) <==> |args| < 2
    ensures r.Failure? ==> r.error == MissingPath || (r.error == NoDisplay && displays == [] && |args| < 4)
    ensures r == Failure(NoDisplay) <==> 2 <= |args| < 4 && displays == []
    ensures r.Success? ==> r.value.source == args[1]
    ensures r.Success? ==> GetDimension(Arg(args, 2), "width", displays) == Some(r.value.maxWidth)
    ensures r.Success? ==> GetDimension(Arg(args, 3), "height", displays) == Some(r.value.maxHeight)
    ensures r.Success? ==> r.value.filter == SelectFilter(Arg(args, 4))
    ensures |args| >= 4 ==> r.Success?
  {
    match Arg(args, 1)
    case None => Failure(MissingPath)
    case Some(path) =>
      match GetDimension(Arg(args, 2), "width", displays)
      case None => Failure(NoDisplay)
      case Some(w) =>
        match GetDimension(Arg(args, 3), "height", displays)
        case None => Failure(NoDisplay)
        case Some(h) => Success(Config(path, w, h, SelectFilter(Arg(args, 4))))
  }

  /** Given only the source path, the maxima are the first listed display's size
      and the filter is the default one. */
  lemma ConfigureWithPathOnly(program: string, source: string, first: Display, others: seq<Display>)
    ensures Configure([program, source], [first] + others) ==
      Success(Config(source, first.width, first.height, Lanczos3))
  {
    assert ([first] + others)[0] == first;
  }
}

=== FILE: classify.dfy ===
/** Deciding from its file name whether a directory entry is an image. */
module Classify {
  import opened Wrappers
  import opened Paths

  /** The extensions the resizer accepts, compared exactly (case-sensitively). */
  const ImageExtensions: seq<string> :=
    ["bmp", "gif", "hdr", "ico", "jpeg", "jpg", "exr", "png", "pnm", "qoi", "tga", "tiff", "webp"]

  /** `is_image`: membership in the fixed list. Every accepted extension is
      three or four lower-case ASCII letters, so any spelling with an
      upper-case letter is refused. */
  function IsImage(ext: string): (r: bool)
    ensures r ==> 3 <= |ext| <= 4
    ensures r ==> forall i :: 0 <= i < |ext| ==> 'a' <= ext[i] <= 'z'
  {
    ext in ImageExtensions
  }

  /** The placeholder used for a name without a readable extension. */
  const NoExtension: string := "none"

  /** The extension text of an entry: the extension when there is one and it
      is well-formed text, and `"none"` otherwise. */
  function ExtensionText(name: OsName): (r: string)
    ensures Extension(name).None? ==> r == NoExtension
    ensures r != NoExtension ==> Extension(name).Some? && ToStr(Extension(name).value) == Some(r)
    ensures Extension(name).Some? && ToStr(Extension(name).value).Some? ==> r == ToStr(Extension(name).value).value
    ensures '.' !in r
  {
    match Extension(name)
    case None => NoExtension
    case Some(ext) =>
      match ToStr(ext)
      case None => NoExtension
      case Some(s) => s
  }

  /** A name without an extension, or whose extension is not text, is never
      an image. */
  lemma UnreadableExtensionIsNotImage(name: OsName)
    requires Extension(name).None? || ToStr(Extension(name).value).None?
    ensures ExtensionText(name) == NoExtension
    ensures !IsImage(ExtensionText(name))
  {
  }

  /** A name `stem.ext` with a non-empty stem and a dot-free text extension
      is classified by `ext` itself. */
  lemma ExtensionTextOfJoinedName(stem: OsName, ext: string)
    requires stem != []
    requires '.' !in ext
    ensures ExtensionText(stem + [Dot] + FromStr(ext)) == ext
    ensures IsImage(ExtensionText(stem + [Dot] + FromStr(ext))) == (ext in ImageExtensions)
  {
    ExtensionOfJoinedName(stem, FromStr(ext));
    ToStrOfFromStr(ext);
  }

  /** Matching is case-sensitive: upper-case and mixed-case spellings of
      accepted extensions are refused. */
  lemma ClassificationIsCaseSensitive()
    ensures IsImage("jpg") && !IsImage("JPG")
    ensures IsImage("png") && !IsImage("Png")
    ensures !IsImage("TIFF") && !IsImage("Jpeg")
  {
    assert "jpg" == ImageExtensions[5];
    assert "png" == ImageExtensions[7];
  }
}

=== FILE: disks.dfy ===
/**
 * The part of the filesystem a run touches: which paths are directories,
 * which are files, and where the OS reports I/O errors. `Prepare` is the
 * destination step of the run; `FileSystem` is the mutable filesystem the
 * run changes.
 */
module Disks {
  import opened Paths
  import opened Faults

  /** The answer of `fs::exists`. */
  datatype Probe = Present | Absent | ProbeFailed

  /**
   * A snapshot of the filesystem. `unprobeable` holds the paths whose
   * existence check reports an I/O error, `uncreatable` the paths where
   * `create_dir` reports one.
   */
  datatype Disk = Disk(dirs: set<Path>, files: set<Path>, unprobeable: set<Path>, uncreatable: set<Path>)
  {
    function Probe(p: Path): (r: Probe)
      ensures r == Present <==> p !in unprobeable && (p in dirs || p in files)
      ensures r == ProbeFailed <==> p in unprobeable
    {
      if p in unprobeable then ProbeFailed
      else if p in dirs || p in files then Present
      else Absent
    }

    /** Whether `create_dir(p)` succeeds: the path must not exist yet. */
    predicate CanCreate(p: Path)
    {
      p !in uncreatable && p !in dirs && p !in files
    }

    /** Whether a file can be written at `target` inside directory `dir`. */
    predicate CanWrite(dir: Path, target: Path)
    {
      dir in dirs && target !in dirs
    }
  }

  /** The name of the output directory inside the source directory. */
  const OutputFolder: string := "resized-images"

  /** `<source>/resized-images`, joined by the Unix rule of `Path::join`. */
  function DestDir(source: Path): (dest: Path)
    ensures |dest| == |source| + |Separator(source)| + |OutputFolder| > |source|
    ensures dest[..|source|] == source
    ensures dest[|source|..|dest| - |OutputFolder|] == Separator(source)
    ensures dest[|dest| - |OutputFolder|..] == OutputFolder
  {
    Join(source, OutputFolder)
  }

  datatype Preparation = Prepared(disk: Disk) | PrepFailed(fault: Fault)

  /**
   * The destination step (after the listing succeeded): if the source
   * exists and `resized-images` does not, create it. A failed existence
   * check or a failed creation ends the run; a source that is reported
   * absent leaves everything as it is and the run goes on.
   */
  function Prepare(source: Path, disk: Disk): (r: Preparation)
    ensures r.PrepFailed? ==> r.fault in {SourceCheckFailed, DestCheckFailed, DestCreateFailed}
    ensures r == PrepFailed(SourceCheckFailed) <==> disk.Probe(source) == ProbeFailed
    ensures r == PrepFailed(DestCheckFailed) <==>
      disk.Probe(source) == Present && disk.Probe(DestDir(source)) == ProbeFailed
    ensures r == PrepFailed(DestCreateFailed) <==>
      disk.Probe(source) == Present && disk.Probe(DestDir(source)) == Absent && !disk.CanCreate(DestDir(source))
    ensures disk.Probe(source) == Absent ==> r == Prepared(disk)
    ensures r.Prepared? ==> r.disk.files == disk.files
    ensures r.Prepared? ==> r.disk.unprobeable == disk.unprobeable && r.disk.uncreatable == disk.uncreatable
    ensures r.Prepared? ==>
      r.disk.dirs == disk.dirs ||
      (disk.Probe(source) == Present && disk.Probe(DestDir(source)) == Absent &&
       r.disk.dirs == disk.dirs + {DestDir(source)})
    ensures r.Prepared? && disk.Probe(source) == Present ==> r.disk.Probe(DestDir(source)) == Present
    ensures disk.Probe(DestDir(source)) == Present ==> r.Prepared? || r.fault == SourceCheckFailed
  {
    var dest := DestDir(source);
    match disk.Probe(source)
    case ProbeFailed => PrepFailed(SourceCheckFailed)
    case Absent => Prepared(disk)
    case Present =>
      match disk.Probe(dest)
      case ProbeFailed => PrepFailed(DestCheckFailed)
      case Present => Prepared(disk)
      case Absent =>
        if disk.CanCreate(dest) then Prepared(disk.(dirs := disk.dirs + {dest}))
        else PrepFailed(DestCreateFailed)
  }

  /** Preparing a second time, with any files added meanwhile outside the
      source path itself, succeeds and changes nothing. */
  lemma PrepareIsIdempotent(source: Path, disk: Disk, added: set<Path>)
    requires Prepare(source, disk).Prepared?
    requires source !in added
    ensures var d := Prepare(source, disk).disk.(files := Prepare(source, disk).disk.files + added);
            Prepare(source, d) == Prepared(d)
  {
    var d1 := Prepare(source, disk).disk;
    var d := d1.(files := d1.files + added);
    var dest := DestDir(source);
    if disk.Probe(source) == Present {
      assert d.Probe(source) == Present;
      assert d.Probe(dest) == Present;
    } else {
      assert disk.Probe(source) == Absent;
      assert d.Probe(source) == Absent;
    }
  }

  /** The filesystem as the run sees and changes it. */
  class FileSystem {
    var dirs: set<Path>
    var files: set<Path>
    const unprobeable: set<Path>
    const uncreatable: set<Path>

    function State(): Disk
      reads this
    {
      Disk(dirs, files, unprobeable, uncreatable)
    }

    constructor (d: Disk)
      ensures State() == d
    {
      dirs, files := d.dirs, d.files;
      unprobeable, uncreatable := d.unprobeable, d.uncreatable;
    }

    /** `fs::exists`. */
    method Exists(p: Path) returns (r: Probe)
      ensures r == State().Probe(p)
    {
      if p in unprobeable {
        r := ProbeFailed;
      } else if p in dirs || p in files {
        r := Present;
      } else {
        r := Absent;
      }
    }

    /** `fs::create_dir`. */
    method CreateDir(p: Path) returns (ok: bool)
      modifies this
      ensures ok == old(State()).CanCreate(p)
      ensures State() == if ok then old(State()).(dirs := old(dirs) + {p}) else old(State())
    {
      ok := p !in uncreatable && p !in dirs && p !in files;
      if ok {
        dirs := dirs + {p};
      }
    }

    /** `DynamicImage::save` to `dir/name`; `encodes` is whether the image
        library can encode the image in the format the name asks for. The
        library creates the target before it encodes, so whenever the target
        can be created it is left in place, written or not: a refused
        encoding leaves an empty or partly written file, and an existing
        file at the target is truncated or overwritten. */
    method Save(dir: Path, name: string, encodes: bool) returns (target: Path, ok: bool)
      modifies this
      ensures target == Join(dir, name)
      ensures ok == (encodes && old(State()).CanWrite(dir, target))
      ensures State() == if old(State()).CanWrite(dir, target) then old(State()).(files := old(files) + {target})
                         else old(State())
    {
      target := Join(dir, name);
      var created := dir in dirs && target !in dirs;
      if created {
        files := files + {target};
      }
      ok := encodes && created;
    }
  }
}

=== FILE: driver.dfy ===
/**
 * The run driver: configuration, destination preparation, and the walk over
 * the source directory's entries that resizes every image into
 * `resized-images`, stopping at the first failure.
 */
module Driver {
  import opened Wrappers
  import opened Paths
  import opened Classify
  import opened Args
  import opened Resize
  import opened Faults
  import opened Disks

  /** What opening and decoding an entry's file as an image gives. */
  datatype Decoding = OpenFails | DecodeFails | Decoded(dims: Dims)

  /**
   * A directory entry. `isDir` is what `Path::is_dir` reports for it;
   * `decoding` and `encodes` are what the image library would do with it
   * (the library itself is not part of this model).
   */
  datatype Entry = Entry(name: OsName, isDir: bool, decoding: Decoding, encodes: bool)

  /** One item of the directory listing, which may be an error. */
  datatype DirItem = ItemError | Item(entry: Entry)

  /** A resized image written by the run: where, into which box, with which filter. */
  datatype Output = Output(target: Path, box: Dims, filter: FilterType)

  /** What the run does with one listing item. */
  datatype Action = Skip | Write(out: Output) | Fail(fault: Fault)

  datatype Status = Done | Aborted(fault: Fault)

  /** The outputs so far, and the failure that ended the walk, if any. */
  datatype Progress = Progress(outputs: seq<Output>, fault: Option<Fault>)

  /** What a run leaves behind: its status, the images it wrote in order,
      and the filesystem afterwards. */
  datatype Outcome = Outcome(status: Status, outputs: seq<Output>, disk: Disk)

  function Targets(outputs: seq<Output>): set<Path>
  {
    set o | o in outputs :: o.target
  }

  lemma TargetsSnoc(outputs: seq<Output>, o: Output)
    ensures Targets(outputs + [o]) == Targets(outputs) + {o.target}
  {
  }

  /**
   * One entry of the loop body: directories and non-images are skipped; an
   * image is opened, decoded, resized into `ResizeBounds` with the chosen
   * filter and saved under its own name in `resized-images`.
   */
  function EntryAction(e: Entry, cfg: Config, dirs: set<Path>): (r: Action)
    ensures e.isDir || !IsImage(ExtensionText(e.name)) <==> r == Skip
    ensures r.Write? ==>
      e.decoding.Decoded? && ToStr(e.name).Some? &&
      r.out.target == Join(DestDir(cfg.source), ToStr(e.name).value) &&
      r.out.box == ResizeBounds(cfg.maxWidth, cfg.maxHeight, e.decoding.dims) &&
      r.out.filter == cfg.filter
    ensures r.Fail? ==> r.fault.OpenFailed? || r.fault.DecodeFailed? || r.fault.NameNotText? || r.fault.SaveFailed?
    ensures r != Skip && e.decoding.OpenFails? ==> r == Fail(OpenFailed(e.name))
    ensures r != Skip && e.decoding.DecodeFails? ==> r == Fail(DecodeFailed(e.name))
    ensures r != Skip && e.decoding.Decoded? && ToStr(e.name).None? ==> r == Fail(NameNotText(e.name))
    ensures r != Skip && e.decoding.Decoded? && ToStr(e.name).Some? ==>
      var target := Join(DestDir(cfg.source), ToStr(e.name).value);
      (r.Write? <==> e.encodes && DestDir(cfg.source) in dirs && target !in dirs) &&
      (r.Fail? ==> r.fault == SaveFailed(target))
  {
    if e.isDir || !IsImage(ExtensionText(e.name)) then Skip
    else
      match e.decoding
      case OpenFails => Fail(OpenFailed(e.name))
      case DecodeFails => Fail(DecodeFailed(e.name))
      case Decoded(dims) =>
        match ToStr(e.name)
        case None => Fail(NameNotText(e.name))
        case Some(n) =>
          var dest := DestDir(cfg.source);
          var target := Join(dest, n);
          if e.encodes && dest in dirs && target !in dirs then
            Write(Output(target, ResizeBounds(cfg.maxWidth, cfg.maxHeight, dims), cfg.filter))
          else Fail(SaveFailed(target))
  }

  /**
   * The file a failure leaves behind. `DynamicImage::save` creates its
   * target before it encodes, so a save that fails although the target could
   * be created (`resized-images` exists and the target is not a directory)
   * still leaves that target, empty or partly written. No other failure
   * leaves a file.
   */
  function Leftover(fault: Option<Fault>, dest: Path, dirs: set<Path>): (r: set<Path>)
    ensures fault.None? ==> r == {}
    ensures r != {} ==> fault.Some? && fault.value.SaveFailed? && r == {fault.value.target}
    ensures fault.Some? && fault.value.SaveFailed? && dest in dirs && fault.value.target !in dirs ==>
      r == {fault.value.target}
  {
    if fault.Some? && fault.value.SaveFailed? && dest in dirs && fault.value.target !in dirs
    then {fault.value.target}
    else {}
  }

  /** An entry whose handling fails leaves a file exactly when it is a
      decoded image with a text name that the library refused to encode,
      while `resized-images` exists and the target is not a directory; the
      file is then that target. */
  lemma EntryLeftover(e: Entry, cfg: Config, dirs: set<Path>)
    requires EntryAction(e, cfg, dirs).Fail?
    ensures var dest := DestDir(cfg.source);
      var left := Leftover(Some(EntryAction(e, cfg, dirs).fault), dest, dirs);
      (left != {} <==>
        e.decoding.Decoded? && ToStr(e.name).Some? && !e.encodes &&
        dest in dirs && Join(dest, ToStr(e.name).value) !in dirs) &&
      (left != {} ==> left == {Join(dest, ToStr(e.name).value)})
  {
  }

  /** The action for one listing item: an item that cannot be read ends the
      walk, an entry is handled by `EntryAction`. */
  function ItemAction(x: DirItem, cfg: Config, dirs: set<Path>): (r: Action)
    ensures r == Fail(EntryReadFailed) <==> x.ItemError?
  {
    match x
    case ItemError => Fail(EntryReadFailed)
    case Item(e) => EntryAction(e, cfg, dirs)
  }

  /** The actions of a sequence of items, in order, under a given rule. */
  function MapActions(items: seq<DirItem>, act: DirItem -> Action): (acts: seq<Action>)
    ensures |acts| == |items|
  {
    if items == [] then []
    else MapActions(items[..|items| - 1], act) + [act(items[|items| - 1])]
  }

  lemma {:induction false} MapActionsAt(items: seq<DirItem>, k: nat, act: DirItem -> Action)
    requires k < |items|
    ensures MapActions(items, act)[k] == act(items[k])
  {
    if k < |items| - 1 {
      MapActionsAt(items[..|items| - 1], k, act);
    }
  }

  lemma DropLastOfAppend<T>(a: seq<T>, b: seq<T>)
    requires b != []
    ensures (a + b)[..|a + b| - 1] == a + b[..|b| - 1]
    ensures (a + b)[|a + b| - 1] == b[|b| - 1]
  {
  }

  lemma SplitAt<T>(s: seq<T>, k: nat)
    requires k < |s|
    ensures s[..k + 1] == s[..k] + [s[k]]
    ensures s[..k + 1] + s[k + 1..] == s
    ensures s[..k] + s[k..] == s
  {
  }

  lemma {:induction false} MapActionsAppend(items: seq<DirItem>, rest: seq<DirItem>, act: DirItem -> Action)
    ensures MapActions(items + rest, act) == MapActions(items, act) + MapActions(rest, act)
  {
    if rest == [] {
      assert items + rest == items;
    } else {
      var front, last := rest[..|rest| - 1], rest[|rest| - 1];
      var all := items + rest;
      MapActionsAppend(items, front, act);
      DropLastOfAppend(items, rest);
      assert MapActions(all, act) == MapActions(items + front, act) + [act(last)];
      assert MapActions(rest, act) == MapActions(front, act) + [act(last)];
    }
  }

  /** The rule the loop body applies to every item. */
  function ActionRule(cfg: Config, dirs: set<Path>): DirItem -> Action
  {
    x => ItemAction(x, cfg, dirs)
  }

  /** What the run does with each item of the listing, in order. */
  function Actions(items: seq<DirItem>, cfg: Config, dirs: set<Path>): (acts: seq<Action>)
    ensures |acts| == |items|
  {
    MapActions(items, ActionRule(cfg, dirs))
  }

  lemma ActionsAt(items: seq<DirItem>, k: nat, cfg: Config, dirs: set<Path>)
    requires k < |items|
    ensures Actions(items, cfg, dirs)[k] == ItemAction(items[k], cfg, dirs)
  {
    MapActionsAt(items, k, ActionRule(cfg, dirs));
  }

  lemma ActionsAppend(items: seq<DirItem>, rest: seq<DirItem>, cfg: Config, dirs: set<Path>)
    ensures Actions(items + rest, cfg, dirs) == Actions(items, cfg, dirs) + Actions(rest, cfg, dirs)
  {
    MapActionsAppend(items, rest, ActionRule(cfg, dirs));
  }

  lemma ActionsPrefix(items: seq<DirItem>, k: nat, cfg: Config, dirs: set<Path>)
    requires k <= |items|
    ensures Actions(items[..k], cfg, dirs) == Actions(items, cfg, dirs)[..k]
  {
    ActionsAppend(items[..k], items[k..], cfg, dirs);
    assert items[..k] + items[k..] == items;
  }

  /** Advancing the walk by one action; once failed, it stays where it is. */
  function Step(p: Progress, a: Action): (q: Progress)
    ensures p.fault.Some? ==> q == p
    ensures |p.outputs| <= |q.outputs| <= |p.outputs| + 1
    ensures |q.outputs| == |p.outputs| + 1 <==> p.fault.None? && a.Write?
    ensures q.fault.None? <==> p.fault.None? && !a.Fail?
    ensures p.fault.None? && a.Fail? ==> q.fault == Some(a.fault)
    ensures p.fault.None? && a.Write? ==> q.outputs == p.outputs + [a.out]
    ensures !(p.fault.None? && a.Write?) ==> q.outputs == p.outputs
  {
    if p.fault.Some? then p
    else
      match a
      case Skip => p
      case Write(o) => Progress(p.outputs + [o], None)
      case Fail(f) => Progress(p.outputs, Some(f))
  }

  /** Carrying out actions from the first, stopping at the first failure. */
  function Fold(acts: seq<Action>): (r: Progress)
    ensures |r.outputs| <= |acts|
    ensures r.fault.Some? ==> Fail(r.fault.value) in acts
  {
    if acts == [] then Progress([], None)
    else Step(Fold(acts[..|acts| - 1]), acts[|acts| - 1])
  }

  /** The loop over the listing. The actions do not depend on one another
      (only the existing directories `dirs` matter, and the loop creates none), so
      walking the items is folding their actions. */
  function Walk(items: seq<DirItem>, cfg: Config, dirs: set<Path>): (r: Progress)
    ensures |r.outputs| <= |items|
    ensures r.fault.Some? ==> Fail(r.fault.value) in Actions(items, cfg, dirs)
  {
    Fold(Actions(items, cfg, dirs))
  }

  lemma FoldSnoc(acts: seq<Action>, a: Action)
    ensures Fold(acts + [a]) == Step(Fold(acts), a)
  {
    assert (acts + [a])[..|acts|] == acts;
  }

  lemma WalkSnoc(items: seq<DirItem>, x: DirItem, cfg: Config, dirs: set<Path>)
    ensures Walk(items + [x], cfg, dirs) == Step(Walk(items, cfg, dirs), ItemAction(x, cfg, dirs))
  {
    ActionsAppend(items, [x], cfg, dirs);
    ActionsAt([x], 0, cfg, dirs);
    FoldSnoc(Actions(items, cfg, dirs), ItemAction(x, cfg, dirs));
  }

  /**
   * The whole of `main`, on values: configuration, listing, preparation of
   * `resized-images`, then the walk. The listing is `None` when the source
   * cannot be read as a directory.
   */
  function RunSpec(args: seq<string>, displays: seq<Display>, listing: Option<seq<DirItem>>, disk: Disk): (r: Outcome)
    ensures r.status == Done || r.outputs != [] ==>
      Configure(args, displays).Success? && |args| >= 2 && listing.Some? && Prepare(args[1], disk).Prepared?
    ensures Configure(args, displays).Failure? ==> r == Outcome(Aborted(Configure(args, displays).error), [], disk)
    ensures Configure(args, displays).Success? && listing.None? ==> r == Outcome(Aborted(ReadDirFailed), [], disk)
    ensures Configure(args, displays).Success? && listing.Some? && Prepare(args[1], disk).PrepFailed? ==>
      r == Outcome(Aborted(Prepare(args[1], disk).fault), [], disk)
  {
    match Configure(args, displays)
    case Failure(f) => Outcome(Aborted(f), [], disk)
    case Success(cfg) =>
      if listing.None? then Outcome(Aborted(ReadDirFailed), [], disk)
      else
        match Prepare(cfg.source, disk)
        case PrepFailed(f) => Outcome(Aborted(f), [], disk)
        case Prepared(d) =>
          var p := Walk(listing.value, cfg, d.dirs);
          Outcome(if p.fault.None? then Done else Aborted(p.fault.value),
                  p.outputs, d.(files := d.files + Targets(p.outputs) + Leftover(p.fault, DestDir(cfg.source), d.dirs)))
  }

  // -----------------------------------------------------------------------
  // Properties of the walk
  // -----------------------------------------------------------------------

  /** Once an action has failed, nothing after it is carried out. */
  lemma {:induction false} FoldStopsAtFault(acts: seq<Action>, rest: seq<Action>)
    requires Fold(acts).fault.Some?
    ensures Fold(acts + rest) == Fold(acts)
  {
    if rest == [] {
      assert acts + rest == acts;
    } else {
      var front := rest[..|rest| - 1];
      FoldStopsAtFault(acts, front);
      assert acts + rest == (acts + front) + [rest[|rest| - 1]];
      FoldSnoc(acts + front, rest[|rest| - 1]);
    }
  }

  /** Folding ends without failure exactly when no action fails. */
  lemma {:induction false} FoldSucceedsIffNoneFails(acts: seq<Action>)
    ensures Fold(acts).fault.None? <==> forall i :: 0 <= i < |acts| ==> !acts[i].Fail?
  {
    if acts != [] {
      var front := acts[..|acts| - 1];
      FoldSucceedsIffNoneFails(front);
      assert forall i :: 0 <= i < |front| ==> front[i] == acts[i];
    }
  }

  /** A failed fold failed at the first failing action, and its outputs are
      those of the actions before it. */
  lemma {:induction false} FoldFailsAtFirstFailure(acts: seq<Action>)
    requires Fold(acts).fault.Some?
    ensures exists k :: (0 <= k < |acts| && Fold(acts[..k]).fault.None? &&
      acts[k] == Fail(Fold(acts).fault.value) && Fold(acts).outputs == Fold(acts[..k]).outputs)
  {
    var front := acts[..|acts| - 1];
    assert Fold(acts) == Step(Fold(front), acts[|acts| - 1]);
    if Fold(front).fault.Some? {
      assert Fold(acts) == Fold(front);
      FoldFailsAtFirstFailure(front);
      var k :| 0 <= k < |front| && Fold(front[..k]).fault.None? &&
        front[k] == Fail(Fold(front).fault.value) && Fold(front).outputs == Fold(front[..k]).outputs;
      assert front[..k] == acts[..k] && front[k] == acts[k];
      assert Fold(acts[..k]).fault.None? && acts[k] == Fail(Fold(acts).fault.value) &&
        Fold(acts).outputs == Fold(acts[..k]).outputs;
    } else {
      var k := |acts| - 1;
      assert acts[..k] == front;
      assert acts[k].Fail? && Fold(acts) == Progress(Fold(front).outputs, Some(acts[k].fault));
      assert Fold(acts[..k]).fault.None? && acts[k] == Fail(Fold(acts).fault.value) &&
        Fold(acts).outputs == Fold(acts[..k]).outputs;
    }
  }

  /** Every output of a fold was written by one of its actions. */
  lemma {:induction false} FoldOutputsAreWrites(acts: seq<Action>)
    ensures forall o :: o in Fold(acts).outputs ==> Write(o) in acts
  {
    if acts != [] {
      var front := acts[..|acts| - 1];
      FoldOutputsAreWrites(front);
      assert forall a :: a in front ==> a in acts;
    }
  }

  /** The outputs of the writes among some actions, in order: what a walk
      produces when nothing fails, with no early return to account for. */
  function Written(acts: seq<Action>): (outs: seq<Output>)
    ensures |outs| <= |acts|
    ensures forall o :: o in outs ==> Write(o) in acts
  {
    if acts == [] then []
    else
      var front := Written(acts[..|acts| - 1]);
      assert forall a :: a in acts[..|acts| - 1] ==> a in acts;
      if acts[|acts| - 1].Write? then front + [acts[|acts| - 1].out] else front
  }

  /** Without a failing action, a fold writes exactly the writes, in order. */
  lemma {:induction false} FoldWithoutFailure(acts: seq<Action>)
    requires forall i :: 0 <= i < |acts| ==> !acts[i].Fail?
    ensures Fold(acts) == Progress(Written(acts), None)
  {
    if acts != [] {
      var front := acts[..|acts| - 1];
      assert forall i :: 0 <= i < |front| ==> front[i] == acts[i];
      FoldWithoutFailure(front);
    }
  }

  /** A fold without failure keeps the output of every write. */
  lemma {:induction false} FoldKeepsEveryWrite(acts: seq<Action>)
    requires Fold(acts).fault.None?
    ensures forall i :: 0 <= i < |acts| && acts[i].Write? ==> acts[i].out in Fold(acts).outputs
  {
    if acts != [] {
      var front := acts[..|acts| - 1];
      assert Fold(front).fault.None?;
      FoldKeepsEveryWrite(front);
      assert Fold(front).outputs <= Fold(acts).outputs;
      assert forall i :: 0 <= i < |front| ==> front[i] == acts[i];
    }
  }

  /** Once an item has failed, nothing after it is looked at: whatever
      follows, the walk ends with the same outputs and the same failure. */
  lemma WalkStopsAtFault(items: seq<DirItem>, rest: seq<DirItem>, cfg: Config, dirs: set<Path>)
    requires Walk(items, cfg, dirs).fault.Some?
    ensures Walk(items + rest, cfg, dirs) == Walk(items, cfg, dirs)
  {
    ActionsAppend(items, rest, cfg, dirs);
    FoldStopsAtFault(Actions(items, cfg, dirs), Actions(rest, cfg, dirs));
  }

  /** Directories, `resized-images` among them, are never opened: they leave
      the walk as it was. */
  lemma WalkSkipsDirectories(items: seq<DirItem>, e: Entry, cfg: Config, dirs: set<Path>)
    requires e.isDir
    ensures Walk(items + [Item(e)], cfg, dirs) == Walk(items, cfg, dirs)
  {
    WalkSnoc(items, Item(e), cfg, dirs);
  }

  /** Files that are not images, including every file whose extension is
      missing or not text, are passed over without failing. */
  lemma WalkSkipsNonImages(items: seq<DirItem>, e: Entry, cfg: Config, dirs: set<Path>)
    requires !IsImage(ExtensionText(e.name))
    ensures Walk(items + [Item(e)], cfg, dirs) == Walk(items, cfg, dirs)
  {
    WalkSnoc(items, Item(e), cfg, dirs);
  }

  /** A walk ends without failure exactly when every item is an entry that
      is skipped or written successfully. */
  lemma WalkSucceedsIffNoItemFails(items: seq<DirItem>, cfg: Config, dirs: set<Path>)
    ensures Walk(items, cfg, dirs).fault.None? <==>
            forall i :: 0 <= i < |items| ==> !ItemAction(items[i], cfg, dirs).Fail?
  {
    FoldSucceedsIffNoneFails(Actions(items, cfg, dirs));
    forall i | 0 <= i < |items| {
      ActionsAt(items, i, cfg, dirs);
    }
  }

  /** A failed walk failed at some item, every item before which went
      through, and the outputs are exactly those of the items before it. */
  lemma WalkFailsAtFirstFailingItem(items: seq<DirItem>, cfg: Config, dirs: set<Path>)
    requires Walk(items, cfg, dirs).fault.Some?
    ensures exists k :: (0 <= k < |items| &&
      Walk(items[..k], cfg, dirs).fault.None? &&
      ItemAction(items[k], cfg, dirs) == Fail(Walk(items, cfg, dirs).fault.value) &&
      Walk(items, cfg, dirs).outputs == Walk(items[..k], cfg, dirs).outputs)
  {
    var acts := Actions(items, cfg, dirs);
    FoldFailsAtFirstFailure(acts);
    var k :| 0 <= k < |acts| && Fold(acts[..k]).fault.None? &&
      acts[k] == Fail(Fold(acts).fault.value) && Fold(acts).outputs == Fold(acts[..k]).outputs;
    ActionsAt(items, k, cfg, dirs);
    ActionsPrefix(items, k, cfg, dirs);
  }

  /** Every output comes from an item of the listing that was a file, an
      image, decoded, and saved under its own name in `resized-images`. */
  lemma WalkOutputsComeFromImages(items: seq<DirItem>, cfg: Config, dirs: set<Path>)
    ensures forall o :: o in Walk(items, cfg, dirs).outputs ==>
      exists i :: 0 <= i < |items| && items[i].Item? && ItemAction(items[i], cfg, dirs) == Write(o)
  {
    var acts := Actions(items, cfg, dirs);
    FoldOutputsAreWrites(acts);
    forall o | o in Walk(items, cfg, dirs).outputs
      ensures exists i :: 0 <= i < |items| && items[i].Item? && ItemAction(items[i], cfg, dirs) == Write(o)
    {
      var i :| 0 <= i < |acts| && acts[i] == Write(o);
      ActionsAt(items, i, cfg, dirs);
    }
  }

  /** A walk without failure writes every image file of the listing, and
      keeps the output of every write. */
  lemma WalkWritesEveryImage(items: seq<DirItem>, cfg: Config, dirs: set<Path>)
    requires Walk(items, cfg, dirs).fault.None?
    ensures forall i :: 0 <= i < |items| && ItemAction(items[i], cfg, dirs).Write? ==>
      ItemAction(items[i], cfg, dirs).out in Walk(items, cfg, dirs).outputs
    ensures forall i :: (0 <= i < |items| && items[i].Item? && !items[i].entry.isDir &&
                         IsImage(ExtensionText(items[i].entry.name))) ==>
      ItemAction(items[i], cfg, dirs).Write? && ItemAction(items[i], cfg, dirs).out in Walk(items, cfg, dirs).outputs
  {
    FoldKeepsEveryWrite(Actions(items, cfg, dirs));
    WalkSucceedsIffNoItemFails(items, cfg, dirs);
    forall i | 0 <= i < |items| {
      ActionsAt(items, i, cfg, dirs);
    }
  }

  /** A listing in which no item fails is walked to the end: the walk
      reports no failure and writes one output per written item, in the
      order of the listing. */
  lemma WalkWithoutFailure(items: seq<DirItem>, cfg: Config, dirs: set<Path>)
    requires forall i :: 0 <= i < |items| ==> !ItemAction(items[i], cfg, dirs).Fail?
    ensures Walk(items, cfg, dirs) == Progress(Written(Actions(items, cfg, dirs)), None)
  {
    var acts := Actions(items, cfg, dirs);
    forall i | 0 <= i < |acts|
      ensures !acts[i].Fail?
    {
      ActionsAt(items, i, cfg, dirs);
    }
    FoldWithoutFailure(acts);
  }

  /** An image file `stem.ext` that decodes, has a text name and encodes is
      resized into `resized-images` under its own name, provided that
      directory exists and the target is not a directory. */
  lemma HealthyImageIsWritten(stem: OsName, ext: string, dims: Dims, cfg: Config, dirs: set<Path>)
    requires stem != [] && '.' !in ext && ext in ImageExtensions
    requires ToStr(stem + [Dot] + FromStr(ext)).Some?
    requires DestDir(cfg.source) in dirs
    requires Join(DestDir(cfg.source), ToStr(stem + [Dot] + FromStr(ext)).value) !in dirs
    ensures var name := stem + [Dot] + FromStr(ext);
      EntryAction(Entry(name, false, Decoded(dims), true), cfg, dirs) ==
      Write(Output(Join(DestDir(cfg.source), ToStr(name).value),
                   ResizeBounds(cfg.maxWidth, cfg.maxHeight, dims), cfg.filter))
  {
    ExtensionTextOfJoinedName(stem, ext);
  }

  // -----------------------------------------------------------------------
  // Properties of the whole run
  // -----------------------------------------------------------------------

  /** Without a source argument the run stops at once: nothing is listed,
      created or written. */
  lemma MissingPathTouchesNothing(args: seq<string>, displays: seq<Display>, listing: Option<seq<DirItem>>, disk: Disk)
    requires |args| < 2
    ensures RunSpec(args, displays, listing, disk) == Outcome(Aborted(MissingPath), [], disk)
  {
  }

  /** A run only ever adds: at most the `resized-images` directory, the
      files it reports as written and, when it stopped at a failed save, the
      target that save left behind. Nothing is removed and no original is
      touched. */
  lemma RunOnlyAdds(args: seq<string>, displays: seq<Display>, listing: Option<seq<DirItem>>, disk: Disk)
    requires |args| >= 2
    ensures var out := RunSpec(args, displays, listing, disk);
      out.disk.files == disk.files + Targets(out.outputs) +
        Leftover(if out.status.Aborted? then Some(out.status.fault) else None, DestDir(args[1]), out.disk.dirs) &&
      disk.dirs <= out.disk.dirs <= disk.dirs + {DestDir(args[1])} &&
      out.disk.unprobeable == disk.unprobeable && out.disk.uncreatable == disk.uncreatable
  {
  }

  /** Every output lies in `resized-images`, under the name of the image it
      was made from. */
  lemma {:induction false} RunWritesIntoDest(args: seq<string>, displays: seq<Display>, listing: Option<seq<DirItem>>, disk: Disk)
    requires |args| >= 2
    ensures forall o :: o in RunSpec(args, displays, listing, disk).outputs ==>
      exists i :: 0 <= i < |listing.value| && listing.value[i].Item? &&
        ToStr(listing.value[i].entry.name).Some? &&
        o.target == Join(DestDir(args[1]), ToStr(listing.value[i].entry.name).value)
  {
    var out := RunSpec(args, displays, listing, disk);
    if out.outputs != [] {
      var cfg := Configure(args, displays).value;
      var d := Prepare(cfg.source, disk).disk;
      WalkOutputsComeFromImages(listing.value, cfg, d.dirs);
    }
  }

  /** After a run that got past preparation and finished, preparing the same
      source again changes nothing and does not fail. */
  lemma RerunPreparesNothing(args: seq<string>, displays: seq<Display>, listing: Option<seq<DirItem>>, disk: Disk)
    requires RunSpec(args, displays, listing, disk).status == Done
    ensures |args| >= 2
    ensures var out := RunSpec(args, displays, listing, disk);
            Prepare(args[1], out.disk) == Prepared(out.disk)
  {
    var cfg := Configure(args, displays).value;
    var d := Prepare(cfg.source, disk).disk;
    var p := Walk(listing.value, cfg, d.dirs);
    WalkOutputsComeFromImages(listing.value, cfg, d.dirs);
    assert cfg.source !in Targets(p.outputs);
    PrepareIsIdempotent(cfg.source, disk, Targets(p.outputs));
  }

  /** An image file `stem.ext` that decodes and has a text name but that
      the library refuses to encode fails with SaveFailed on its target in
      `resized-images`, and that target is left behind whenever
      `resized-images` exists and the target is not a directory. */
  lemma RefusedImageLeavesTarget(stem: OsName, ext: string, dims: Dims, cfg: Config, dirs: set<Path>)
    requires stem != [] && '.' !in ext && ext in ImageExtensions
    requires ToStr(stem + [Dot] + FromStr(ext)).Some?
    ensures var name := stem + [Dot] + FromStr(ext);
      var dest := DestDir(cfg.source);
      var target := Join(dest, ToStr(name).value);
      EntryAction(Entry(name, false, Decoded(dims), false), cfg, dirs) == Fail(SaveFailed(target)) &&
      Leftover(Some(SaveFailed(target)), dest, dirs) == (if dest in dirs && target !in dirs then {target} else {})
  {
    ExtensionTextOfJoinedName(stem, ext);
  }

  /** Once the configuration and the preparation succeed, the run is the
      walk of the listing over the prepared disk. */
  lemma RunAfterPreparation(args: seq<string>, displays: seq<Display>, items: seq<DirItem>, disk: Disk, cfg: Config, d: Disk)
    requires Configure(args, displays) == Success(cfg)
    requires Prepare(cfg.source, disk) == Prepared(d)
    ensures var p := Walk(items, cfg, d.dirs);
      RunSpec(args, displays, Some(items), disk) ==
      Outcome(if p.fault.None? then Done else Aborted(p.fault.value), p.outputs,
              d.(files := d.files + Targets(p.outputs) + Leftover(p.fault, DestDir(cfg.source), d.dirs)))
  {
  }

  /** The entries of the example folder below: a photo and a note. */
  function Photo(): Entry
  {
    Entry(FromStr("a") + [Dot] + FromStr("jpg"), false, Decoded(Dims(800, 600)), true)
  }

  function Note(): Entry
  {
    Entry(FromStr("notes") + [Dot] + FromStr("md"), false, DecodeFails, true)
  }

  lemma PhotoIsWritten(cfg: Config, dirs: set<Path>)
    requires DestDir(cfg.source) in dirs
    requires Join(DestDir(cfg.source), "a.jpg") !in dirs
    ensures ItemAction(Item(Photo()), cfg, dirs) ==
      Write(Output(Join(DestDir(cfg.source), "a.jpg"),
                   ResizeBounds(cfg.maxWidth, cfg.maxHeight, Dims(800, 600)), cfg.filter))
  {
    assert Photo().name == FromStr("a.jpg");
    ToStrOfFromStr("a.jpg");
    HealthyImageIsWritten(FromStr("a"), "jpg", Dims(800, 600), cfg, dirs);
  }

  lemma NoteIsSkipped(cfg: Config, dirs: set<Path>)
    ensures ItemAction(Item(Note()), cfg, dirs) == Skip
  {
    ExtensionTextOfJoinedName(FromStr("notes"), "md");
  }

  /** Walking the photo and the note into an existing `resized-images`
      writes the photo only, under its own name; the note is not even
      opened. */
  lemma {:induction false} PhotoAndNoteWalk(cfg: Config, dirs: set<Path>)
    requires DestDir(cfg.source) in dirs
    requires Join(DestDir(cfg.source), "a.jpg") !in dirs
    ensures Walk([Item(Photo()), Item(Note())], cfg, dirs) ==
      Progress([Output(Join(DestDir(cfg.source), "a.jpg"),
                       ResizeBounds(cfg.maxWidth, cfg.maxHeight, Dims(800, 600)), cfg.filter)], None)
  {
    PhotoIsWritten(cfg, dirs);
    NoteIsSkipped(cfg, dirs);
    WalkSnoc([], Item(Photo()), cfg, dirs);
    WalkSnoc([Item(Photo())], Item(Note()), cfg, dirs);
    assert [Item(Photo())] + [Item(Note())] == [Item(Photo()), Item(Note())];
  }

  lemma PhotoAndNotePrepare(source: Path)
    ensures var disk := Disk({source}, {Join(source, "a.jpg"), Join(source, "notes.md")}, {}, {});
      Prepare(source, disk) == Prepared(disk.(dirs := {source, DestDir(source)}))
  {
    assert |source| < |Join(source, "a.jpg")| < |Join(source, "notes.md")| < |DestDir(source)|;
  }

  /** A folder holding the photo `a.jpg` and the note `notes.md`, run with
      no size or speed arguments on a 1920x1080 display: the run completes,
      creates `resized-images` in the folder, and writes exactly one image,
      the photo, into the display's size with the default filter. */
  lemma PhotoAndNoteFolder(source: Path)
    ensures var originals := {Join(source, "a.jpg"), Join(source, "notes.md")};
      RunSpec(["img-resize", source], [Display(1920, 1080)], Some([Item(Photo()), Item(Note())]),
              Disk({source}, originals, {}, {})) ==
      Outcome(Done, [Output(Join(DestDir(source), "a.jpg"), Dims(1920, 1080), Lanczos3)],
              Disk({source, DestDir(source)}, originals + {Join(DestDir(source), "a.jpg")}, {}, {}))
  {
    var dest, target := DestDir(source), Join(DestDir(source), "a.jpg");
    assert |source| < |Join(source, "a.jpg")| < |Join(source, "notes.md")| < |dest| < |target|;
    var cfg := Config(source, 1920, 1080, Lanczos3);
    ConfigureWithPathOnly("img-resize", source, Display(1920, 1080), []);
    assert [Display(1920, 1080)] + [] == [Display(1920, 1080)];
    assert Configure(["img-resize", source], [Display(1920, 1080)]) == Success(cfg);
    var disk := Disk({source}, {Join(source, "a.jpg"), Join(source, "notes.md")}, {}, {});
    var d := disk.(dirs := {source, DestDir(source)});
    PhotoAndNotePrepare(source);
    PhotoAndNoteWalk(cfg, d.dirs);
  }

  /** An icon the ICO encoder refuses: a 32x32 `favicon.ico`, which the box
      of a 1920x1080 display blows up past the 256-pixel limit of the
      format. */
  function Icon(): Entry
  {
    Entry(FromStr("favicon") + [Dot] + FromStr("ico"), false, Decoded(Dims(32, 32)), false)
  }

  lemma IconIsRefused(cfg: Config, dirs: set<Path>)
    requires DestDir(cfg.source) in dirs
    requires Join(DestDir(cfg.source), "favicon.ico") !in dirs
    ensures ItemAction(Item(Icon()), cfg, dirs) == Fail(SaveFailed(Join(DestDir(cfg.source), "favicon.ico")))
  {
    assert Icon().name == FromStr("favicon.ico");
    ToStrOfFromStr("favicon.ico");
    assert "ico" == ImageExtensions[3];
    RefusedImageLeavesTarget(FromStr("favicon"), "ico", Dims(32, 32), cfg, dirs);
  }

  lemma IconPrepare(source: Path)
    ensures var disk := Disk({source}, {Join(source, "favicon.ico")}, {}, {});
      Prepare(source, disk) == Prepared(disk.(dirs := {source, DestDir(source)}))
  {
    assert |source| < |Join(source, "favicon.ico")| < |DestDir(source)|;
  }

  lemma {:induction false} IconWalk(cfg: Config, dirs: set<Path>)
    requires DestDir(cfg.source) in dirs
    requires Join(DestDir(cfg.source), "favicon.ico") !in dirs
    ensures Walk([Item(Icon())], cfg, dirs) == Progress([], Some(SaveFailed(Join(DestDir(cfg.source), "favicon.ico"))))
  {
    IconIsRefused(cfg, dirs);
    WalkSnoc([], Item(Icon()), cfg, dirs);
    assert [] + [Item(Icon())] == [Item(Icon())];
  }

  lemma IconRun(source: Path)
    ensures var disk := Disk({source}, {Join(source, "favicon.ico")}, {}, {});
      var d := disk.(dirs := {source, DestDir(source)});
      var p := Walk([Item(Icon())], Config(source, 1920, 1080, Lanczos3), d.dirs);
      RunSpec(["img-resize", source], [Display(1920, 1080)], Some([Item(Icon())]), disk) ==
      Outcome(if p.fault.None? then Done else Aborted(p.fault.value), p.outputs,
              d.(files := d.files + Targets(p.outputs) + Leftover(p.fault, DestDir(source), d.dirs)))
  {
    ConfigureWithPathOnly("img-resize", source, Display(1920, 1080), []);
    assert [Display(1920, 1080)] + [] == [Display(1920, 1080)];
    IconPrepare(source);
    var disk := Disk({source}, {Join(source, "favicon.ico")}, {}, {});
    RunAfterPreparation(["img-resize", source], [Display(1920, 1080)], [Item(Icon())], disk,
                        Config(source, 1920, 1080, Lanczos3), disk.(dirs := {source, DestDir(source)}));
  }

  lemma IconWalkLeaves(source: Path)
    ensures var dirs := {source, DestDir(source)};
      var target := Join(DestDir(source), "favicon.ico");
      var p := Walk([Item(Icon())], Config(source, 1920, 1080, Lanczos3), dirs);
      p == Progress([], Some(SaveFailed(target))) &&
      {Join(source, "favicon.ico")} + Targets(p.outputs) + Leftover(p.fault, DestDir(source), dirs) ==
        {Join(source, "favicon.ico"), target}
  {
    var dest, target := DestDir(source), Join(DestDir(source), "favicon.ico");
    assert |source| < |dest| < |target|;
    IconWalk(Config(source, 1920, 1080, Lanczos3), {source, dest});
    assert Targets([]) == {};
    assert Leftover(Some(SaveFailed(target)), dest, {source, dest}) == {target};
  }

  /** A folder holding only that icon, run with only the path on a
      1920x1080 display: the save is refused and the run aborts with
      SaveFailed, yet `resized-images/favicon.ico` is left behind. */
  lemma RefusedIconLeavesFile(source: Path)
    ensures var original, target := Join(source, "favicon.ico"), Join(DestDir(source), "favicon.ico");
      RunSpec(["img-resize", source], [Display(1920, 1080)], Some([Item(Icon())]), Disk({source}, {original}, {}, {})) ==
      Outcome(Aborted(SaveFailed(target)), [], Disk({source, DestDir(source)}, {original, target}, {}, {}))
  {
    IconRun(source);
    IconWalkLeaves(source);
  }

  // -----------------------------------------------------------------------
  // The run itself
  // -----------------------------------------------------------------------

  /**
   * Lines 42-66 of `main`: check that the source exists and, if it does,
   * that `resized-images` exists, creating it when it does not.
   */
  method PrepareDest(source: Path, fs: FileSystem) returns (fault: Option<Fault>)
    modifies fs
    ensures fault.None? <==> Prepare(source, old(fs.State())).Prepared?
    ensures fault.Some? ==> Prepare(source, old(fs.State())) == PrepFailed(fault.value) && fs.State() == old(fs.State())
    ensures fault.None? ==> fs.State() == Prepare(source, old(fs.State())).disk
  {
    fault := None;
    var dest := DestDir(source);
    var sourceExists := fs.Exists(source);
    if sourceExists == ProbeFailed {
      fault := Some(SourceCheckFailed);
      return;
    }
    if sourceExists == Present {
      var destExists := fs.Exists(dest);
      if destExists == ProbeFailed {
        fault := Some(DestCheckFailed);
        return;
      }
      if destExists == Absent {
        var created := fs.CreateDir(dest);
        if !created {
          fault := Some(DestCreateFailed);
        }
      }
    }
  }

  /**
   * The body of the loop over the listing for one entry (lines 76-130):
   * skip directories and non-images; open, decode, resize and save images.
   */
  method ProcessEntry(e: Entry, cfg: Config, fs: FileSystem) returns (action: Action)
    modifies fs
    ensures action == EntryAction(e, cfg, old(fs.dirs))
    ensures action.Skip? ==> fs.State() == old(fs.State())
    ensures action.Write? ==> fs.State() == old(fs.State()).(files := old(fs.files) + {action.out.target})
    ensures action.Fail? ==>
      fs.State() == old(fs.State()).(files := old(fs.files) + Leftover(Some(action.fault), DestDir(cfg.source), old(fs.dirs)))
  {
    action := Skip;
    if e.isDir {
      return;
    }
    var ext := ExtensionText(e.name);
    if !IsImage(ext) {
      return;
    }
    match e.decoding {
      case OpenFails =>
        action := Fail(OpenFailed(e.name));
      case DecodeFails =>
        action := Fail(DecodeFailed(e.name));
      case Decoded(dims) =>
        var box := ResizeBounds(cfg.maxWidth, cfg.maxHeight, dims);
        var name := ToStr(e.name);
        if name.None? {
          action := Fail(NameNotText(e.name));
        } else {
          var target, saved := fs.Save(DestDir(cfg.source), name.value, e.encodes);
          if saved {
            action := Write(Output(target, box, cfg.filter));
          } else {
            action := Fail(SaveFailed(target));
          }
        }
    }
  }

  /** One item of the listing (lines 69-130): an unreadable item ends the
      loop, an entry is processed. */
  method ProcessItem(x: DirItem, cfg: Config, fs: FileSystem) returns (action: Action)
    modifies fs
    ensures action == ItemAction(x, cfg, old(fs.dirs))
    ensures action.Skip? ==> fs.State() == old(fs.State())
    ensures action.Write? ==> fs.State() == old(fs.State()).(files := old(fs.files) + {action.out.target})
    ensures action.Fail? ==>
      fs.State() == old(fs.State()).(files := old(fs.files) + Leftover(Some(action.fault), DestDir(cfg.source), old(fs.dirs)))
  {
    match x {
      case ItemError =>
        action := Fail(EntryReadFailed);
      case Item(e) =>
        action := ProcessEntry(e, cfg, fs);
    }
  }

  /** The walk advances by the action of the next item; a failing action
      ends the whole walk. */
  lemma WalkAdvance(items: seq<DirItem>, i: nat, cfg: Config, dirs: set<Path>, outputs: seq<Output>, action: Action)
    requires i < |items|
    requires Walk(items[..i], cfg, dirs) == Progress(outputs, None)
    requires ItemAction(items[i], cfg, dirs) == action
    ensures Walk(items[..i + 1], cfg, dirs) == Step(Progress(outputs, None), action)
    ensures action.Fail? ==> Walk(items, cfg, dirs) == Progress(outputs, Some(action.fault))
  {
    SplitAt(items, i);
    WalkSnoc(items[..i], items[i], cfg, dirs);
    if action.Fail? {
      WalkStopsAtFault(items[..i + 1], items[i + 1..], cfg, dirs);
    }
  }

  /** One turn of the loop over the listing: the item's action advances the
      walk by one step, a failing action ends the whole walk, and the
      filesystem gains what the action leaves behind. `start` is the
      filesystem before the loop. */
  method VisitItem(items: seq<DirItem>, i: nat, cfg: Config, ghost start: Disk, outputs: seq<Output>, fs: FileSystem)
    returns (action: Action, next: seq<Output>)
    requires i < |items|
    requires Walk(items[..i], cfg, start.dirs) == Progress(outputs, None)
    requires fs.State() == start.(files := start.files + Targets(outputs))
    modifies fs
    ensures !action.Fail? ==>
      Walk(items[..i + 1], cfg, start.dirs) == Progress(next, None) &&
      fs.State() == start.(files := start.files + Targets(next))
    ensures action.Fail? ==>
      Walk(items, cfg, start.dirs) == Progress(outputs, Some(action.fault)) &&
      fs.State() == start.(files := start.files + Targets(outputs) + Leftover(Some(action.fault), DestDir(cfg.source), start.dirs))
  {
    action := ProcessItem(items[i], cfg, fs);
    WalkAdvance(items, i, cfg, start.dirs, outputs, action);
    next := outputs;
    if action.Write? {
      TargetsSnoc(outputs, action.out);
      next := outputs + [action.out];
    }
  }

  /**
   * Lines 68-131 of `main`: the loop over the listing, returning at the
   * first item that fails.
   */
  method WalkEntries(items: seq<DirItem>, cfg: Config, fs: FileSystem) returns (outputs: seq<Output>, fault: Option<Fault>)
    modifies fs
    ensures Progress(outputs, fault) == Walk(items, cfg, old(fs.dirs))
    ensures fs.State() == old(fs.State()).(files := old(fs.files) + Targets(outputs) +
                                             Leftover(fault, DestDir(cfg.source), old(fs.dirs)))
  {
    ghost var start := fs.State();
    outputs, fault := [], None;
    var i := 0;
    while i < |items|
      invariant 0 <= i <= |items|
      invariant Walk(items[..i], cfg, start.dirs) == Progress(outputs, None)
      invariant fs.State() == start.(files := start.files + Targets(outputs))
    {
      var action, next := VisitItem(items, i, cfg, start, outputs, fs);
      if action.Fail? {
        fault := Some(action.fault);
        return;
      }
      outputs := next;
      i := i + 1;
    }
    assert items[..i] == items;
  }

  /**
   * `main`: resolve the configuration, list the source, prepare
   * `resized-images`, then go through the listing, returning at the first
   * failure. Returns the final status and the images written, in order.
   */
  method Run(args: seq<string>, displays: seq<Display>, listing: Option<seq<DirItem>>, fs: FileSystem)
    returns (status: Status, outputs: seq<Output>)
    modifies fs
    ensures Outcome(status, outputs, fs.State()) == RunSpec(args, displays, listing, old(fs.State()))
  {
    outputs := [];
    var conf := Configure(args, displays);
    if conf.Failure? {
      status := Aborted(conf.error);
      return;
    }
    var cfg := conf.value;
    if listing.None? {
      status := Aborted(ReadDirFailed);
      return;
    }
    var prepFault := PrepareDest(cfg.source, fs);
    if prepFault.Some? {
      status := Aborted(prepFault.value);
      return;
    }
    var fault;
    outputs, fault := WalkEntries(listing.value, cfg, fs);
    status := if fault.None? then Done else Aborted(fault.value);
  }
}

=== FILE: faults.dfy ===
/** Every way a run of the resizer can end early. Each one is reported on
    the error stream and ends the whole run. */
module Faults {
  import opened Paths

  datatype Fault =
    | MissingPath                  // no source directory argument
    | NoDisplay                    // a dimension fell back to a display, and none could be queried
    | ReadDirFailed                // the source directory cannot be listed
    | SourceCheckFailed            // whether the source exists cannot be determined
    | DestCheckFailed              // whether `resized-images` exists cannot be determined
    | DestCreateFailed             // `resized-images` cannot be created
    | EntryReadFailed              // the listing yields an error instead of an entry
    | OpenFailed(name: OsName)     // the image file cannot be opened
    | DecodeFailed(name: OsName)   // the image file cannot be decoded
    | NameNotText(name: OsName)    // the file name is not UTF-8 text
    | SaveFailed(target: Path)     // the resized image cannot be written
}

=== FILE: paths.dfy ===
/**
 * File names as the operating system hands them out, and the two rules of
 * Rust's `std::path` the resizer relies on: `Path::extension` and
 * `Path::join`.
 */
module Paths {
  import opened Wrappers

  /** A byte that can stand outside well-formed UTF-8. Every ASCII byte
      (below 0x80) is well-formed on its own, so such a byte is never `.`. */
  type StrayByte = b: bv8 | 0x80 <= b witness 0x80

  /** One unit of an OS file name: a character of well-formed UTF-8 text, or
      a byte that belongs to no well-formed UTF-8 sequence. */
  datatype OsUnit = Text(c: char) | Raw(b: StrayByte)

  /** The file name of a directory entry (`OsStr`). */
  type OsName = seq<OsUnit>

  /** Paths built from the (UTF-8) command-line argument. */
  type Path = string

  const Dot: OsUnit := Text('.')

  /** A file name made only of text. */
  function FromStr(s: string): (name: OsName)
    ensures |name| == |s|
    ensures forall i :: 0 <= i < |s| ==> name[i] == Text(s[i])
  {
    seq(|s|, i requires 0 <= i < |s| => Text(s[i]))
  }

  /** `OsStr::to_str`: the name as a string, when every unit of it is text. */
  function ToStr(name: OsName): (r: Option<string>)
    ensures r.Some? <==> forall i :: 0 <= i < |name| ==> name[i].Text?
    ensures r.Some? ==> |r.value| == |name| && forall i :: 0 <= i < |name| ==> name[i] == Text(r.value[i])
  {
    if name == [] then Some([])
    else if name[0].Raw? then None
    else
      match ToStr(name[1..])
      case None => None
      case Some(rest) =>
        assert name == [name[0]] + name[1..];
        Some([name[0].c] + rest)
  }

  /** A name made from a string converts back to that string. */
  lemma ToStrOfFromStr(s: string)
    ensures ToStr(FromStr(s)) == Some(s)
  {
    var r := ToStr(FromStr(s));
    assert r.Some?;
    assert forall i :: 0 <= i < |s| ==> r.value[i] == s[i] by {
      forall i | 0 <= i < |s| ensures r.value[i] == s[i] {
        assert FromStr(s)[i] == Text(r.value[i]);
      }
    }
    assert r.value == s;
  }

  /** The position of the last dot in a name, if it has one. */
  function LastDot(name: OsName): (r: Option<nat>)
    ensures r.None? <==> Dot !in name
    ensures r.Some? ==> r.value < |name| && name[r.value] == Dot
    ensures r.Some? ==> Dot !in name[r.value + 1..]
  {
    if name == [] then None
    else if name[|name| - 1] == Dot then Some(|name| - 1)
    else
      assert name == name[..|name| - 1] + [name[|name| - 1]];
      LastDot(name[..|name| - 1])
  }

  /**
   * `Path::extension` applied to an entry's file name: the part after the
   * last dot, unless the name has no dot at all or its only dot is its
   * first unit (a hidden file such as `.profile`).
   */
  function Extension(name: OsName): (r: Option<OsName>)
    ensures r.None? <==> forall i :: 0 < i < |name| ==> name[i] != Dot
    ensures r.Some? ==> exists i :: 0 < i < |name| && name[i] == Dot && r.value == name[i + 1..]
    ensures r.Some? ==> Dot !in r.value
  {
    match LastDot(name)
    case None => None
    case Some(i) =>
      if i == 0 then
        assert forall j :: 0 < j < |name| ==> name[j] in name[1..];
        None
      else Some(name[i + 1..])
  }

  /** Splitting a name at a dot gives back the part after it, as long as the
      part before it is not empty and the part after it holds no dot. */
  lemma {:induction false} ExtensionOfJoinedName(stem: OsName, ext: OsName)
    requires stem != []
    requires Dot !in ext
    ensures Extension(stem + [Dot] + ext) == Some(ext)
  {
    var name := stem + [Dot] + ext;
    var i := |stem|;
    assert name[i] == Dot;
    assert name[i + 1..] == ext;
    var r := LastDot(name);
    assert r.Some?;
  }

  /** What `Path::join` puts between a base and a relative component on
      Unix: no separator after an empty base or one that already ends with
      `/`, and a single `/` otherwise. */
  function Separator(base: Path): (sep: string)
    ensures sep == [] <==> base == [] || base[|base| - 1] == '/'
    ensures sep != [] ==> sep == "/"
  {
    if base == [] || base[|base| - 1] == '/' then "" else "/"
  }

  /** `Path::join` for a relative component on Unix: a separator is put
      between the two parts unless the base is empty or already ends with
      one. */
  function Join(base: Path, part: string): (r: Path)
    ensures |r| == |base| + |Separator(base)| + |part|
    ensures r[..|base|] == base
    ensures r[|base|..|r| - |part|] == Separator(base)
    ensures r[|r| - |part|..] == part
  {
    base + Separator(base) + part
  }
}

=== FILE: resize.dfy ===
/** The box an image is resized into. */
module Resize {
  import opened Args

  /** The size of a decoded image, in pixels. */
  datatype Dims = Dims(width: U32, height: U32)

  /**
   * The bounds handed to the image library's `resize`: a configured maximum
   * of 0 falls back to the image's width, for the width AND for the height.
   * The image's own height never takes part.
   */
  function ResizeBounds(maxWidth: U32, maxHeight: U32, img: Dims): (box: Dims)
    ensures box.width == maxWidth || (maxWidth == 0 && box.width == img.width)
    ensures box.height == maxHeight || (maxHeight == 0 && box.height == img.width)
    ensures img.width > 0 ==> box.width > 0 && box.height > 0
  {
    Dims(if maxWidth == 0 then img.width else maxWidth,
         if maxHeight == 0 then img.width else maxHeight)
  }

  /** Two images of the same width get the same bounds, however tall. */
  lemma BoundsIgnoreImageHeight(maxWidth: U32, maxHeight: U32, width: U32, h1: U32, h2: U32)
    ensures ResizeBounds(maxWidth, maxHeight, Dims(width, h1)) == ResizeBounds(maxWidth, maxHeight, Dims(width, h2))
  {
  }

  /** With both maxima 0 the box is a square of the image's width, so a
      100x50 image is asked to fit 100x100 rather than its own 100x50. */
  lemma ZeroMaximaGiveSquareOfWidth()
    ensures ResizeBounds(0, 0, Dims(100, 50)) == Dims(100, 100)
  {
  }
}

=== FILE: wrappers.dfy ===
/** Optional values and results with an error, as used throughout the model. */
module Wrappers {

  datatype Option<+T> = None | Some(value: T)

  datatype Result<+T, +E> = Success(value: T) | Failure(error: E)
}
